=== FILE: README.md ===
# polymap in Dafny

A model of `polymap.py`, the Python poly-map: a dictionary whose keys can be
tagged into named groups. A poly-map is two structures kept in step:

- the primary `key -> value` dictionary;
- the group index `_groups`, a `defaultdict(set)` from group id to the set
  of keys tagged with it.

The invariant the library relies on, `Valid`, is that every key in any group
is a key of the dictionary. The model is functional:
`PolyMap(entries: map<K, V>, groups: map<G, set<K>>)` is an immutable value,
and each method of `_PolyMap` is a pure function from one poly-map to the
next. Where the Python raises `KeyError` or `ValueError`, the function returns
`Err(KeyError)` or `Err(ValueError)`. Python's `None` defaults become an
`Option`. The tuple-key convention of `__setitem__` (`p[k, g1, g2] = v`)
becomes an explicit `tags: seq<G>` argument.

The group index keeps explicit entries, and they may hold empty sets, exactly
as the defaultdict does. Ungrouping a key never removes an id. Only
`clear(g)` deletes an id. This matters because `==` compares the raw indices.

Files:

- `wrappers.dfy`: `Option`, the two exceptions, `Result`.
- `polymap.dfy` (module `PolyMaps`): the data model, `Valid`, and every
  mutator: set, delete, pop, popitem, setdefault, update, group, ungroup,
  clear, and the constructor's copying of groups.
- `polymap_views.dfy` (module `PolyMapViews`): `keys`, `items`, `values`,
  `groups`, `grouped`, `copy` and `==`.
- `polymap_properties.dfy` (module `PolyMapProperties`): lemmas that relate
  several operations. These include the `clear()` defect, the delete/set
  round trip, and `clear(g)` as the loop of deletions it runs.
- `polymap_scenarios.dfy` (module `PolyMapScenarios`): the scenarios of
  `test_polymap.py`, proved on the model. The two tests that build from
  keyword arguments and build a `DefaultPolyMap` are outside the model
  (see Left out).

Every mutator except `clear()` with no group states
`Valid(p) ==> Valid(result)` in its own contract. For `update` from a
poly-map the other map must be valid too, since its memberships are copied
in. `clear()` with no group empties only the dictionary, and
`ClearAllBreaksValid` shows that it breaks the invariant.

Three behaviours of the code that are easy to mistake, all modelled as
written:

- `ungroup(k, g)` raises `KeyError` when `k` is not in `g`, because it uses
  `set.remove`. It does not silently do nothing.
- `clear()` leaves the group index untouched (see Findings).
- `==` compares the raw group indices, so an id left with an empty set makes
  two otherwise identical poly-maps unequal (`EqualsSeesEmptyGroups`).

## Model

| member | source | states |
|---|---|---|
| PolyMaps.AddToGroups | polymap.py:23-26 | the tag loop leaves every listed id in the index holding the key, creates ids that were missing, and changes no other set |
| PolyMaps.SetItem | polymap.py:21-27 | after `p[k, *tags] = v`, `p[k]` is `v` and `k` is in every tag; memberships `k` already had are kept; no other key's entry or membership changes; validity is preserved |
| PolyMaps.UngroupAll | polymap.py:117-120 | `ungroup(k)` removes `k` from every group and keeps every id; the dictionary and other keys' memberships are unchanged; validity is preserved |
| PolyMaps.Ungroup | polymap.py:117-120 | with a group, KeyError exactly when `k` is not in that group, otherwise `k` leaves only that group; with no group it never fails and `k` leaves every group |
| PolyMaps.Delete | polymap.py:29-32 | `del p[k]` raises KeyError exactly when `k` is absent; otherwise `k` is gone from the dictionary and from every group, and nothing else changes |
| PolyMaps.Pop | polymap.py:74-77 | `pop(k, d)` returns the stored value, or `d` when `k` is absent, never raises, and retracts `k` from the dictionary and every group |
| PolyMaps.PopItem | polymap.py:79-83 | `popitem()` raises KeyError exactly on an empty dictionary; otherwise the returned pair was stored, and its key is now gone from the dictionary and every group |
| PolyMaps.SetDefault | polymap.py:85-89 | returns the stored value, or stores and returns the default; with a group, `k` joins it either way, and that id is the only one added to the index; no other key changes |
| PolyMaps.Update | polymap.py:34-39 | entries merge as `dict.update` does, with the other map's values winning; from a poly-map, every membership of either map is kept and no id of this map is dropped |
| PolyMaps.Group | polymap.py:106-115 | ValueError with no ids, checked before the key; KeyError for an absent key; otherwise `k`'s groups become exactly the ids (replace) or gain them (no replace), the index gains exactly the listed ids and keeps every old id, even one the replace emptied |
| PolyMaps.ClearAll | polymap.py:59-62 | `clear()` as written: the dictionary becomes empty and the group index is left exactly as it was |
| PolyMaps.ClearAllCorrected | polymap.py:59-62 | the intended `clear()`: no entries, an empty group index, and a valid result |
| PolyMaps.ClearGroup | polymap.py:63-66 | `clear(g)` removes exactly `g`'s members from the dictionary and from every other group, keeps non-members, and deletes the id `g` |
| PolyMaps.Clear | polymap.py:59-66 | with no group the dictionary is emptied and the index kept; with a group, the members of `g` leave the dictionary and every other group, the remaining values are unchanged, `g` is the only id that leaves the index, and validity is preserved |
| PolyMaps.FromMapping | polymap.py:126-131 | the new poly-map has the argument's entries, and its group index when the argument is a poly-map, otherwise none |
| PolyMapViews.Keys | polymap.py:47-51 | `keys()` is the dictionary's key set; `keys(g)` is exactly `g`'s members |
| PolyMapViews.Items | polymap.py:41-45 | `items(g)` holds exactly `g`'s members with their current values; it raises KeyError exactly when a member of `g` is not stored |
| PolyMapViews.ValueBagCounts | polymap.py:53-57 | the bag of a dictionary's values holds each value once per key that stores it |
| PolyMapViews.Values | polymap.py:53-57 | `values(g)` holds each value as often as a member of `g` stores it, with the same KeyError condition as `items(g)` |
| PolyMapViews.Groups | polymap.py:93-98 | `groups()` is exactly the ids whose set is non-empty; `groups(k)` is exactly the ids whose set contains `k` |
| PolyMapViews.Grouped | polymap.py:100-104 | one entry per non-empty group, holding that group's `items(g)`; consuming it raises KeyError exactly when the map is not valid |
| PolyMapViews.Copy | polymap.py:68-72 | `copy()` is the same poly-map, with the same entries and index; `copy(g)` holds exactly `g`'s entries and an empty index, or raises KeyError as `items(g)` does |
| PolyMapViews.Equals | polymap.py:12-17 | never equal to a plain mapping; equal to a poly-map iff the dictionaries and the raw group indices are equal |
| PolyMapProperties.ClearAllValidIff | polymap.py:59-62 | `clear()` keeps the invariant iff no group has a member |
| PolyMapProperties.ClearAllBreaksValid | polymap.py:59-62 | after `p[k, g] = v; p.clear()` the map is invalid: `groups()` still lists `g`, `keys(g)` still yields `k`, and `items(g)` raises KeyError |
| PolyMapProperties.ClearAllCorrectedEmptiesEverything | polymap.py:59-62 | after the corrected `clear()` the map is valid, and `groups()`, `keys()`, `keys(g)`, `items()`, `items(g)`, `values()`, `values(g)` and `grouped()` are all empty, and it equals a fresh `PolyMap()` |
| PolyMapProperties.UngroupAllOfAbsentKey | polymap.py:29-32 | on a valid map, the `ungroup(k)` that `del` runs before raising KeyError for an absent key changes nothing |
| PolyMapProperties.DeleteUndoesSetItem | polymap.py:21-32 | deleting a fresh untagged key after setting it gives back the same poly-map |
| PolyMapProperties.DeleteUndoesTaggedSetItem | polymap.py:21-32 | deleting a fresh tagged key restores the dictionary, every membership and `groups()` |
| PolyMapProperties.DeleteEach | polymap.py:63-65 | the loop `for key in keys: del self[key]`: fails only with KeyError, and succeeds whenever the keys are distinct and stored; on success the dictionary keeps exactly the keys not deleted, with their values, each deleted key has left every group, other memberships are kept, and validity is preserved |
| PolyMapProperties.DeleteEachRetracts | polymap.py:63-65 | deleting distinct stored keys one after another removes exactly those keys from the dictionary and from every group |
| PolyMapProperties.ClearGroupIsDeleteEach | polymap.py:59-66 | whenever `g`'s members are stored, `clear(g)` equals deleting `g`'s members in any order and then dropping `g` |
| PolyMapProperties.SetItemTagsAccumulate | polymap.py:21-27 | setting a key twice keeps the tags of both sets, and the later value wins |
| PolyMapProperties.GroupSetsGroupsOf | polymap.py:106-115 | after `group`, `groups(k)` is exactly the ids (replace) or the old groups plus the ids (no replace) |
| PolyMapProperties.UngroupAllKeepsEntry | polymap.py:117-120 | after `ungroup(k)`, `groups(k)` is empty and `p[k]` is unchanged |
| PolyMapProperties.GroupsAreGroupsOfKeys | polymap.py:93-98 | in a valid map, `groups()` lists `g` iff some stored key lists `g` in `groups(key)` |
| PolyMapProperties.UpdateWithSelf | polymap.py:34-39 | updating a poly-map with itself changes nothing |
| PolyMapProperties.CopyEqualsOriginal | polymap.py:68-71 | `copy()` compares equal to the original, both ways round |
| PolyMapProperties.CopyGroupHasItems | polymap.py:68-72 | `copy(g)` holds the same pairs `items(g)` yields |
| PolyMapProperties.EqualsSeesEmptyGroups | polymap.py:12-17 | tagging then ungrouping a key leaves an empty id that `==` sees, although `items()`, `groups()` and `groups(k)` agree |
| PolyMapScenarios.CreateFromMappingScenario | test_polymap.py:10-12 | `PolyMap({"hello": "world"})["hello"]` is "world" |
| PolyMapScenarios.SetItemWithGroupScenario | test_polymap.py:15-19 | after `poly["cat", "animal"] = "tom"`, `poly["cat"]` is "tom" and `groups()` lists "animal" |
| PolyMapScenarios.ViewsByGroupScenario | test_polymap.py:22-47 | `items`, `keys` and `values` filtered by "plant" yield only the marigold, and `groups("marigold")` is {"plant"} |
| PolyMapScenarios.GroupedScenario | test_polymap.py:55-64 | `grouped()` pairs "animal" with the cat and "plant" with the marigold |
| PolyMapScenarios.ClearByGroupScenario | test_polymap.py:67-72 | `clear("plant")` leaves only "cat" among the keys |
| PolyMapScenarios.UpdateScenario | test_polymap.py:75-82 | `update` brings in the marigold and the "plant" group and keeps "animal" |
| PolyMapScenarios.EqualsAndCopyScenario | test_polymap.py:85-98 | two maps built by the same set are equal; a copy is equal and lists the same groups |
| PolyMapScenarios.UngroupAllScenario | test_polymap.py:102-109 | after `ungroup("dog")`, `groups("dog")` is empty, `groups()` is {"animal"}, and the dog's value remains |
| PolyMapScenarios.GroupKeyScenario | test_polymap.py:112-116 | `group("cat", "animals")` makes "animals" the cat's only group |

## Findings

| source | as written | input that shows it | evidently intended | confidence | as-written member | corrected member |
|---|---|---|---|---|---|---|
| polymap.py:59-62 | `clear()` calls only `dict.clear`, so every group keeps its keys after the dictionary is emptied | `p["cat", "animal"] = "tom"; p.clear()`: `groups()` still lists "animal", and `items("animal")` raises KeyError | "Remove all items" also empties the group index, so no key is left dangling | high; not executed | PolyMaps.ClearAll (shown by PolyMapProperties.ClearAllBreaksValid) | PolyMaps.ClearAllCorrected (proved by PolyMapProperties.ClearAllCorrectedEmptiesEverything) |

`PolyMaps.Clear` models `clear(group)` as written, so with no group it uses
`ClearAll`. `ClearAllCorrected` states what the method evidently means to do.

## Left out

- Keys and group ids equal to Python's `None` are not modelled. The model's `Option` keeps "no argument" apart from every key and id, but the code uses `None` for both. So `groups(None)` (polymap.py:96-97) lists every non-empty group, and `ungroup(None)` (polymap.py:119-120) calls `.remove(None)` on each of them. It raises KeyError when a non-empty group lacks `None`. As a result, `del p[None]`, `pop(None, d)` and `group(None, g)` (replace) can raise KeyError with `None` still stored, and `popitem()` can lose a `None` pair after removing it from the dictionary (polymap.py:81). Likewise, a group named `None` can never be selected by `items`, `keys`, `values`, `copy`, `clear`, `ungroup` or `setdefault`. For these inputs the contracts of `PolyMaps.Delete`, `PolyMaps.Pop`, `PolyMaps.PopItem` and `PolyMaps.Group` do not describe the code.
- `DefaultPolyMap` (polymap.py:134-142) is not modelled. Its factory is an arbitrary callable, and reads of absent keys call it. Its `copy()` passes the map itself as the factory. Only `PolyMap` is modelled, so the test at test_polymap.py:50-52 has no scenario.
- `__getitem__` is `dict`'s own method. `PolyMaps.Get` stands in for it only so that contracts can say `p[k]`.
- The tuple-key convention is replaced by an explicit tag list. Two consequences are therefore not modelled: a tuple can never be stored as a key, and `p[()] = v` fails to unpack.
- Lazy generators and views are modelled as snapshots taken at once. Iteration order, restartability and mutation during iteration are not modelled. `items`, `values` and `grouped` report as `Err(KeyError)` the `self[k]` failure their generators hit on a dangling member.
- Reads that insert an empty set for an absent id are not modelled. These are `items(g)`, `keys(g)`, `values(g)` and `copy(g)`, which calls `items(g)`, and `ungroup(k, g)` before it raises. The side effect only shows through `==`.
- Side effects that happen before an exception are dropped: a failing call returns `Err` and no new state. For `del` of an absent key, `UngroupAllOfAbsentKey` shows the dropped `ungroup(k)` is a no-op on a valid map. For `clear(g)` with a dangling member, the deletions made before the failure are lost.
- PolyMaps.PopItem: does not state which pair is removed. Python's `dict.popitem` removes the most recently inserted pair, and the model has no insertion order.
- The aliasing of group `set` objects between a poly-map and its copy (polymap.py:130) is not modelled. Values cannot share mutable state, so only equality at creation time is stated.
- The `NotImplemented` path of `__eq__` is not modelled. `==` is modelled against plain mappings and poly-maps only.
- Keyword arguments and iterables of pairs, as accepted by the constructor and `update`, are not modelled. The argument is a mapping or a poly-map, so the test at test_polymap.py:5-7 has no scenario.
- Python's `None` as the default value of `pop` and `setdefault` is not a separate case. The default is any `V`, and `V` may include a `None`-like value.

=== FILE: polymap.dfy ===
/** The poly-map: a key/value dictionary kept in step with a group index
    that tags keys into named groups (polymap.py, class `_PolyMap`).

    This module holds the data model and every mutating operation. Each
    operation is a pure function from one poly-map to the next; where the
    Python raises, the function returns `Err`. */
module PolyMaps {
  import opened Wrappers

  /** The two structures of a poly-map: the primary dictionary and the
      group index `_groups`. The index is a `defaultdict(set)`: an id stays
      in it, possibly with an empty set, until `clear(g)` deletes it. */
  datatype PolyMap<K, G, V> = PolyMap(entries: map<K, V>, groups: map<G, set<K>>)

  /** What the constructor, `update` and `==` accept: a plain mapping, or
      another poly-map, whose group index is then taken into account. */
  datatype Mapping<K, G, V> = Plain(m: map<K, V>) | Poly(pm: PolyMap<K, G, V>)

  /** The key/value pairs of any mapping argument. */
  function EntriesOf<K(!new), G(!new), V>(other: Mapping<K, G, V>): map<K, V>
  {
    match other
    case Plain(m) => m
    case Poly(q) => q.entries
  }

  /** The keys of group g; an id absent from the index reads as the empty
      set, as the defaultdict does. */
  function Members<K(!new), G(!new), V>(p: PolyMap<K, G, V>, g: G): set<K>
  {
    if g in p.groups then p.groups[g] else {}
  }

  /** Key k is tagged with group g. */
  predicate InGroup<K(!new), G(!new), V>(p: PolyMap<K, G, V>, k: K, g: G)
  {
    g in p.groups && k in p.groups[g]
  }

  /** The invariant: every key of every group is a key of the dictionary. */
  predicate Valid<K(!new), G(!new), V>(p: PolyMap<K, G, V>)
  {
    forall g :: g in p.groups ==> p.groups[g] <= p.entries.Keys
  }

  /** No key other than k gained or lost a group between p and q. */
  ghost predicate MembershipsKeptExcept<K(!new), G(!new), V>(p: PolyMap<K, G, V>, q: PolyMap<K, G, V>, k: K)
  {
    forall g, k' :: k' != k ==> (InGroup(p, k', g) <==> InGroup(q, k', g))
  }

  /** `p[k]`: the stored value, or KeyError. */
  function Get<K(!new), G(!new), V>(p: PolyMap<K, G, V>, k: K): (r: Result<V>)
    ensures r.Ok? <==> k in p.entries
    ensures r.Err? ==> r.error == KeyError
  {
    if k in p.entries then Ok(p.entries[k]) else Err(KeyError)
  }

  /** `self._groups[g].add(k)`: creates the id's set if it is absent. */
  function AddMember<K(!new), G(!new)>(groups: map<G, set<K>>, g: G, k: K): map<G, set<K>>
  {
    groups[g := (if g in groups then groups[g] else {}) + {k}]
  }

  /** The loop `for tag in tags: self._groups[tag].add(key)`: every listed
      id ends up in the index holding k, and nothing else is touched. */
  function AddToGroups<K(!new), G(!new)>(groups: map<G, set<K>>, k: K, tags: seq<G>): (r: map<G, set<K>>)
    ensures r.Keys == groups.Keys + (set t | t in tags)
    ensures forall g :: g in r ==>
      r[g] == (if g in groups then groups[g] else {}) + (if g in tags then {k} else {})
    decreases |tags|
  {
    if |tags| == 0 then groups
    else AddToGroups(AddMember(groups, tags[0], k), k, tags[1..])
  }

  /** `p[k, *tags] = v` (polymap.py `__setitem__`, with the tuple-key
      convention replaced by an explicit list of tags). The value is
      stored, k joins every listed group, memberships k had are kept, and
      nothing happens to any other key. */
  function SetItem<K(!new), G(!new), V>(p: PolyMap<K, G, V>, k: K, v: V, tags: seq<G>): (r: PolyMap<K, G, V>)
    ensures Get(r, k) == Ok(v)
    ensures r.entries - {k} == p.entries - {k}
    ensures forall g :: InGroup(r, k, g) <==> InGroup(p, k, g) || g in tags
    ensures MembershipsKeptExcept(p, r, k)
    ensures r.groups.Keys == p.groups.Keys + (set t | t in tags)
    ensures Valid(p) ==> Valid(r)
  {
    var groups := AddToGroups(p.groups, k, tags);
    assert forall g :: g in groups ==> groups[g] == Members(p, g) + (if g in tags then {k} else {});
    PolyMap(p.entries[k := v], groups)
  }

  /** `ungroup(k)` with no group: k leaves every group; the ids stay in the
      index, possibly with empty sets, and the dictionary is untouched. */
  function UngroupAll<K(!new), G(!new), V>(p: PolyMap<K, G, V>, k: K): (r: PolyMap<K, G, V>)
    ensures r.entries == p.entries
    ensures r.groups.Keys == p.groups.Keys
    ensures forall g :: !InGroup(r, k, g)
    ensures MembershipsKeptExcept(p, r, k)
    ensures Valid(p) ==> Valid(r)
  {
    PolyMap(p.entries, map g | g in p.groups :: p.groups[g] - {k})
  }

  /** `ungroup(k, group)`. With no group it is UngroupAll. With a group it
      uses `set.remove`, so it raises KeyError when k is not in that group. */
  function Ungroup<K(!new), G(!new), V>(p: PolyMap<K, G, V>, k: K, group: Option<G>): (r: Result<PolyMap<K, G, V>>)
    ensures group.Some? ==> (r.Err? <==> !InGroup(p, k, group.value))
    ensures group.None? ==> r.Ok?
    ensures r.Err? ==> r.error == KeyError
    ensures r.Ok? ==> r.value.entries == p.entries && r.value.groups.Keys == p.groups.Keys
    ensures r.Ok? ==> forall g ::
      (InGroup(r.value, k, g) <==> InGroup(p, k, g) && group.Some? && group.value != g)
    ensures r.Ok? ==> MembershipsKeptExcept(p, r.value, k)
    ensures r.Ok? && Valid(p) ==> Valid(r.value)
  {
    match group
    case None => Ok(UngroupAll(p, k))
    case Some(g) =>
      if InGroup(p, k, g) then Ok(PolyMap(p.entries, p.groups[g := p.groups[g] - {k}]))
      else Err(KeyError)
  }

  /** `del p[k]`: k leaves every group and the dictionary; KeyError when
      k is not a key. */
  function Delete<K(!new), G(!new), V>(p: PolyMap<K, G, V>, k: K): (r: Result<PolyMap<K, G, V>>)
    ensures r.Err? <==> k !in p.entries
    ensures r.Err? ==> r.error == KeyError
    ensures r.Ok? ==> k !in r.value.entries && r.value.entries - {k} == p.entries - {k}
    ensures r.Ok? ==> forall g :: !InGroup(r.value, k, g)
    ensures r.Ok? ==> MembershipsKeptExcept(p, r.value, k)
    ensures r.Ok? ==> r.value.groups.Keys == p.groups.Keys
    ensures r.Ok? && Valid(p) ==> Valid(r.value)
  {
    var q := UngroupAll(p, k);
    if k in q.entries then Ok(q.(entries := q.entries - {k})) else Err(KeyError)
  }

  /** `pop(k, default)`: like `del`, but returns the removed value, or the
      default when k is absent, and never raises. */
  function Pop<K(!new), G(!new), V>(p: PolyMap<K, G, V>, k: K, default: V): (r: (PolyMap<K, G, V>, V))
    ensures k in p.entries ==> r.1 == p.entries[k]
    ensures k !in p.entries ==> r.1 == default
    ensures k !in r.0.entries && r.0.entries - {k} == p.entries - {k}
    ensures forall g :: !InGroup(r.0, k, g)
    ensures MembershipsKeptExcept(p, r.0, k)
    ensures r.0.groups.Keys == p.groups.Keys
    ensures Valid(p) ==> Valid(r.0)
  {
    var q := UngroupAll(p, k);
    if k in q.entries then (q.(entries := q.entries - {k}), q.entries[k]) else (q, default)
  }

  /** `popitem()`: removes some pair, returns it and retracts its key from
      every group; KeyError on an empty dictionary. Which pair is chosen
      (the last inserted, in Python) is left open. */
  method PopItem<K(!new), G(!new), V>(p: PolyMap<K, G, V>) returns (r: Result<(K, V, PolyMap<K, G, V>)>)
    ensures r.Err? <==> |p.entries| == 0
    ensures r.Err? ==> r.error == KeyError
    ensures r.Ok? ==> var (k, v, q) := r.value;
      && k in p.entries && p.entries[k] == v
      && k !in q.entries && q.entries - {k} == p.entries - {k}
      && (forall g :: !InGroup(q, k, g))
      && MembershipsKeptExcept(p, q, k)
      && q.groups.Keys == p.groups.Keys
      && (Valid(p) ==> Valid(q))
  {
    if |p.entries| == 0 {
      return Err(KeyError);
    }
    var k :| k in p.entries;
    var v := p.entries[k];
    var q := UngroupAll(p.(entries := p.entries - {k}), k);
    return Ok((k, v, q));
  }

  /** `setdefault(k, default, group)`: returns the stored value, or stores
      and returns the default; with a group, k joins it either way. */
  function SetDefault<K(!new), G(!new), V>(p: PolyMap<K, G, V>, k: K, default: V, group: Option<G>): (r: (PolyMap<K, G, V>, V))
    ensures k in p.entries ==> r.1 == p.entries[k]
    ensures k !in p.entries ==> r.1 == default
    ensures Get(r.0, k) == Ok(r.1)
    ensures r.0.entries - {k} == p.entries - {k}
    ensures forall g :: InGroup(r.0, k, g) <==> InGroup(p, k, g) || group == Some(g)
    ensures r.0.groups.Keys == p.groups.Keys + (if group.Some? then {group.value} else {})
    ensures MembershipsKeptExcept(p, r.0, k)
    ensures Valid(p) ==> Valid(r.0)
  {
    var q := if group.Some? then p.(groups := AddMember(p.groups, group.value, k)) else p;
    if k in q.entries then (q, q.entries[k]) else (q.(entries := q.entries[k := default]), default)
  }

  /** The union of two group indices, id by id. */
  function MergeGroups<K(!new), G(!new)>(a: map<G, set<K>>, b: map<G, set<K>>): map<G, set<K>>
  {
    map g | g in a.Keys + b.Keys ::
      (if g in a then a[g] else {}) + (if g in b then b[g] else {})
  }

  /** `update(other)`: the entries are merged as `dict.update` does, the
      other's values winning; when the other is a poly-map every group
      becomes the union of both, and none of this map's groups is lost. */
  function Update<K(!new), G(!new), V>(p: PolyMap<K, G, V>, other: Mapping<K, G, V>): (r: PolyMap<K, G, V>)
    ensures r.entries.Keys == p.entries.Keys + EntriesOf(other).Keys
    ensures forall k :: k in EntriesOf(other) ==> r.entries[k] == EntriesOf(other)[k]
    ensures forall k :: k in p.entries && k !in EntriesOf(other) ==> r.entries[k] == p.entries[k]
    ensures other.Plain? ==> r.groups == p.groups
    ensures other.Poly? ==> r.groups.Keys == p.groups.Keys + other.pm.groups.Keys
    ensures other.Poly? ==> forall g, k ::
      InGroup(r, k, g) <==> InGroup(p, k, g) || InGroup(other.pm, k, g)
    ensures Valid(p) && (other.Poly? ==> Valid(other.pm)) ==> Valid(r)
  {
    match other
    case Plain(m) => p.(entries := p.entries + m)
    case Poly(q) => PolyMap(p.entries + q.entries, MergeGroups(p.groups, q.groups))
  }

  /** `group(k, *gs, replace)`: ValueError with no ids (checked first),
      KeyError when k is not a key; otherwise k's groups become exactly
      the listed ids (replace) or gain them (no replace). */
  function Group<K(!new), G(!new), V>(p: PolyMap<K, G, V>, k: K, gs: seq<G>, replace: bool): (r: Result<PolyMap<K, G, V>>)
    ensures |gs| == 0 ==> r == Err(ValueError)
    ensures |gs| > 0 && k !in p.entries ==> r == Err(KeyError)
    ensures |gs| > 0 && k in p.entries ==> r.Ok?
    ensures r.Ok? ==> r.value.entries == p.entries
    ensures r.Ok? ==> forall g ::
      (InGroup(r.value, k, g) <==> g in gs || (!replace && InGroup(p, k, g)))
    ensures r.Ok? ==> r.value.groups.Keys == p.groups.Keys + (set g | g in gs)
    ensures r.Ok? ==> MembershipsKeptExcept(p, r.value, k)
    ensures r.Ok? && Valid(p) ==> Valid(r.value)
  {
    if |gs| == 0 then Err(ValueError)
    else if k !in p.entries then Err(KeyError)
    else
      var q := if replace then UngroupAll(p, k) else p;
      Ok(q.(groups := AddToGroups(q.groups, k, gs)))
  }

  /** `clear()` as written: `dict.clear` empties the dictionary and the
      group index is left as it was, so its keys dangle. */
  function ClearAll<K(!new), G(!new), V>(p: PolyMap<K, G, V>): (r: PolyMap<K, G, V>)
    ensures |r.entries| == 0
    ensures r.groups == p.groups
  {
    p.(entries := map[])
  }

  /** `clear()` as its docstring and the invariant intend: the dictionary
      and the group index both emptied. */
  function ClearAllCorrected<K(!new), G(!new), V>(p: PolyMap<K, G, V>): (r: PolyMap<K, G, V>)
    ensures |r.entries| == 0
    ensures forall g :: Members(r, g) == {}
    ensures r.groups == map[]
    ensures Valid(r)
  {
    PolyMap(map[], map[])
  }

  /** `clear(g)`: deletes every key of g, which retracts each from every
      other group too, then drops the id g from the index. A member that
      is not a key makes its `del` raise KeyError. */
  function ClearGroup<K(!new), G(!new), V>(p: PolyMap<K, G, V>, g: G): (r: Result<PolyMap<K, G, V>>)
    ensures r.Ok? <==> Members(p, g) <= p.entries.Keys
    ensures r.Err? ==> r.error == KeyError
    ensures r.Ok? ==> forall k ::
      (k in r.value.entries <==> k in p.entries && !InGroup(p, k, g))
    ensures r.Ok? ==> forall k :: k in r.value.entries ==> r.value.entries[k] == p.entries[k]
    ensures r.Ok? ==> g !in r.value.groups && r.value.groups.Keys == p.groups.Keys - {g}
    ensures r.Ok? ==> forall h, k ::
      (InGroup(r.value, k, h) <==> InGroup(p, k, h) && !InGroup(p, k, g))
    ensures r.Ok? && Valid(p) ==> Valid(r.value)
  {
    var doomed := Members(p, g);
    if doomed <= p.entries.Keys then
      Ok(PolyMap(p.entries - doomed, map h | h in p.groups && h != g :: p.groups[h] - doomed))
    else
      Err(KeyError)
  }

  /** `clear(group)`: ClearAll with no group, ClearGroup with one. */
  function Clear<K(!new), G(!new), V>(p: PolyMap<K, G, V>, group: Option<G>): (r: Result<PolyMap<K, G, V>>)
    ensures group.None? ==> r.Ok? && |r.value.entries| == 0 && r.value.groups == p.groups
    ensures group.Some? ==> (r.Ok? <==> Members(p, group.value) <= p.entries.Keys)
    ensures group.Some? && r.Ok? ==> forall k ::
      (k in r.value.entries <==> k in p.entries && !InGroup(p, k, group.value))
    ensures group.Some? && r.Ok? ==> forall k :: k in r.value.entries ==> r.value.entries[k] == p.entries[k]
    ensures group.Some? && r.Ok? ==> forall h, k ::
      (InGroup(r.value, k, h) <==> InGroup(p, k, h) && !InGroup(p, k, group.value))
    ensures group.Some? && r.Ok? ==> group.value !in r.value.groups
    ensures group.Some? && r.Ok? ==> r.value.groups.Keys == p.groups.Keys - {group.value}
    ensures group.Some? && r.Ok? && Valid(p) ==> Valid(r.value)
  {
    match group
    case None => Ok(ClearAll(p))
    case Some(g) => ClearGroup(p, g)
  }

  /** `PolyMap(value)`: the entries of the argument, and its group index
      too when it is a poly-map. */
  function FromMapping<K(!new), G(!new), V>(other: Mapping<K, G, V>): (r: PolyMap<K, G, V>)
    ensures r.entries == EntriesOf(other)
    ensures other.Plain? ==> r.groups == map[]
    ensures other.Poly? ==> r.groups == other.pm.groups
    ensures other.Plain? || Valid(other.pm) ==> Valid(r)
  {
    match other
    case Plain(m) => PolyMap(m, map[])
    case Poly(q) => PolyMap(q.entries, q.groups)
  }
}

=== FILE: polymap_properties.dfy ===
/** Properties that relate several poly-map operations: round trips,
    invariant preservation and its one exception, `clear()`, and the
    agreement of the bulk `clear(g)` with the loop of deletions it runs. */
module PolyMapProperties {
  import opened Wrappers
  import opened PolyMaps
  import opened PolyMapViews

  /** The poly-map `PolyMap()`. */
  function Empty<K(!new), G(!new), V>(): PolyMap<K, G, V>
  {
    FromMapping(Plain(map[]))
  }

  /* ---------- clear() leaves dangling keys ---------- */

  /** `clear()` as written keeps the invariant only when no group has a
      member: any membership dangles once the dictionary is emptied. */
  lemma ClearAllValidIff<K(!new), G(!new), V>(p: PolyMap<K, G, V>)
    ensures Valid(ClearAll(p)) <==> forall g :: Members(p, g) == {}
  {
    if Valid(ClearAll(p)) {
      forall g ensures Members(p, g) == {} {
        if g in p.groups {
          assert p.groups[g] <= ClearAll(p).entries.Keys;
        }
      }
    }
    if forall g :: Members(p, g) == {} {
      forall g | g in ClearAll(p).groups ensures ClearAll(p).groups[g] <= ClearAll(p).entries.Keys {
        assert Members(p, g) == {};
      }
    }
  }

  /** After `p[k, g] = v; p.clear()` the map is no longer valid: `groups()`
      still lists g, `keys(g)` still yields k, and `items(g)` raises
      KeyError although the dictionary is empty. */
  lemma ClearAllBreaksValid<K(!new), G(!new), V(!new)>(k: K, g: G, v: V)
    ensures var p := SetItem(Empty(), k, v, [g]);
      && Valid(p)
      && !Valid(ClearAll(p))
      && g in Groups(ClearAll(p), None)
      && k in Keys(ClearAll(p), Some(g))
      && Items(ClearAll(p), Some(g)) == Err(KeyError)
  {
  }

  /** After the corrected `clear()` nothing is left in the dictionary or
      in any group, and the map is valid, whatever it was before. */
  lemma ClearAllCorrectedEmptiesEverything<K(!new), G(!new), V(!new)>(p: PolyMap<K, G, V>)
    ensures var r := ClearAllCorrected(p);
      && Valid(r)
      && Groups(r, None) == {}
      && Items(r, None) == Ok({})
      && (forall g :: Items(r, Some(g)) == Ok({}))
      && Keys(r, None) == {}
      && (forall g :: Keys(r, Some(g)) == {})
      && Values(r, None) == Ok(multiset{})
      && (forall g :: Values(r, Some(g)) == Ok(multiset{}))
      && Grouped(r) == Ok(map[])
      && Equals(r, Poly(Empty()))
  {
    var r := ClearAllCorrected(p);
    assert Groups(r, None) == {};
    assert PairsOf(r, r.entries.Keys) == {};
  }

  /* ---------- deletion ---------- */

  /** `del p[k]` runs `ungroup(k)` before the dictionary raises KeyError.
      On a valid map that ungroup changes nothing, so modelling the failed
      delete as "no change, KeyError" loses nothing. */
  lemma UngroupAllOfAbsentKey<K(!new), G(!new), V>(p: PolyMap<K, G, V>, k: K)
    requires Valid(p) && k !in p.entries
    ensures UngroupAll(p, k) == p
  {
    var q := UngroupAll(p, k);
    forall g | g in p.groups ensures q.groups[g] == p.groups[g] {
      assert k !in p.groups[g];
    }
  }

  /** Storing a new key without tags and deleting it again gives back the
      very same poly-map. */
  lemma DeleteUndoesSetItem<K(!new), G(!new), V>(p: PolyMap<K, G, V>, k: K, v: V)
    requires Valid(p) && k !in p.entries
    ensures Delete(SetItem(p, k, v, []), k) == Ok(p)
  {
    var s := SetItem(p, k, v, []);
    assert s.groups == p.groups;
    UngroupAllOfAbsentKey(p, k);
    assert s.entries - {k} == p.entries;
  }

  /** With tags, deleting the new key again restores the dictionary and
      every membership; only empty sets for new tag ids remain in the
      index, which `==` can see but no read operation can. */
  lemma DeleteUndoesTaggedSetItem<K(!new), G(!new), V>(p: PolyMap<K, G, V>, k: K, v: V, tags: seq<G>)
    requires Valid(p) && k !in p.entries
    ensures Delete(SetItem(p, k, v, tags), k).Ok?
    ensures var q := Delete(SetItem(p, k, v, tags), k).value;
      && q.entries == p.entries
      && (forall g, k' :: InGroup(q, k', g) <==> InGroup(p, k', g))
      && Groups(q, None) == Groups(p, None)
  {
  }

  /** The dictionary minus the keys of s, with s retracted from every group. */
  function Retract<K(!new), G(!new), V>(p: PolyMap<K, G, V>, s: set<K>): PolyMap<K, G, V>
  {
    PolyMap(p.entries - s, map h | h in p.groups :: p.groups[h] - s)
  }

  /** The loop `for key in keys: del self[key]`, stopping at the first
      KeyError. */
  function DeleteEach<K(!new), G(!new), V>(p: PolyMap<K, G, V>, ks: seq<K>): (r: Result<PolyMap<K, G, V>>)
    ensures r.Err? ==> r.error == KeyError
    ensures r.Ok? ==> forall k :: k in r.value.entries <==> k in p.entries && k !in ks
    ensures r.Ok? ==> forall k :: k in r.value.entries ==> r.value.entries[k] == p.entries[k]
    ensures r.Ok? ==> forall h, k ::
      (InGroup(r.value, k, h) <==> InGroup(p, k, h) && k !in ks)
    ensures r.Ok? && Valid(p) ==> Valid(r.value)
    ensures ((forall i :: 0 <= i < |ks| ==> ks[i] in p.entries)
             && (forall i, j :: 0 <= i < j < |ks| ==> ks[i] != ks[j])) ==> r.Ok?
    decreases |ks|
  {
    if |ks| == 0 then Ok(p)
    else
      match Delete(p, ks[0])
      case Err(e) => Err(e)
      case Ok(q) => DeleteEach(q, ks[1..])
  }

  /** Retracting a, then b, is retracting both at once. */
  lemma RetractTwice<K(!new), G(!new), V>(p: PolyMap<K, G, V>, a: set<K>, b: set<K>)
    ensures Retract(Retract(p, a), b) == Retract(p, a + b)
  {
    var r := Retract(Retract(p, a), b);
    assert r.entries == p.entries - (a + b);
    forall h | h in p.groups ensures r.groups[h] == Retract(p, a + b).groups[h] {
      assert r.groups[h] == (p.groups[h] - a) - b;
    }
    assert r.groups == Retract(p, a + b).groups;
  }

  /** The elements of a non-empty sequence: its head and those of its tail. */
  lemma ElementsOfCons<K>(ks: seq<K>)
    requires |ks| > 0
    ensures (set k | k in ks) == {ks[0]} + (set k | k in ks[1..])
  {
  }

  /** Deleting distinct stored keys one after another removes
      exactly those keys from the dictionary and from every group. */
  lemma {:induction false} DeleteEachRetracts<K(!new), G(!new), V>(p: PolyMap<K, G, V>, ks: seq<K>)
    requires forall i :: 0 <= i < |ks| ==> ks[i] in p.entries
    requires forall i, j :: 0 <= i < j < |ks| ==> ks[i] != ks[j]
    ensures DeleteEach(p, ks) == Ok(Retract(p, set k | k in ks))
    decreases |ks|
  {
    if |ks| == 0 {
      assert (set k | k in ks) == {};
      assert p.entries - {} == p.entries;
      forall h | h in p.groups ensures p.groups[h] - {} == p.groups[h] {
      }
      assert (map h | h in p.groups :: p.groups[h] - {}) == p.groups;
    } else {
      var q := Delete(p, ks[0]).value;
      assert q == Retract(p, {ks[0]});
      forall i | 0 <= i < |ks[1..]| ensures ks[1..][i] in q.entries {
        assert ks[1..][i] == ks[i + 1] && ks[i + 1] != ks[0];
      }
      DeleteEachRetracts(q, ks[1..]);
      ElementsOfCons(ks);
      RetractTwice(p, {ks[0]}, set k | k in ks[1..]);
    }
  }

  /** Whenever g's members are all stored, `clear(g)` is exactly its own
      loop: delete each member of g, in any order, then drop the id g from
      the index. This holds on maps left invalid by `clear()` too. */
  lemma ClearGroupIsDeleteEach<K(!new), G(!new), V>(p: PolyMap<K, G, V>, g: G, ks: seq<K>)
    requires Members(p, g) <= p.entries.Keys
    requires (set k | k in ks) == Members(p, g)
    requires forall i, j :: 0 <= i < j < |ks| ==> ks[i] != ks[j]
    ensures DeleteEach(p, ks).Ok?
    ensures ClearGroup(p, g) == Ok(DeleteEach(p, ks).value.(groups := DeleteEach(p, ks).value.groups - {g}))
  {
    forall i | 0 <= i < |ks| ensures ks[i] in p.entries {
      assert ks[i] in Members(p, g);
    }
    DeleteEachRetracts(p, ks);
    var d := Retract(p, Members(p, g));
    var c := ClearGroup(p, g).value;
    assert c.entries == d.entries;
    assert c.groups == d.groups - {g};
  }

  /* ---------- tags and groups ---------- */

  /** Setting a key twice accumulates its tags; the later value wins. */
  lemma SetItemTagsAccumulate<K(!new), G(!new), V>(p: PolyMap<K, G, V>, k: K, v1: V, tags1: seq<G>, v2: V, tags2: seq<G>)
    ensures var r := SetItem(SetItem(p, k, v1, tags1), k, v2, tags2);
      && Get(r, k) == Ok(v2)
      && Groups(r, Some(k)) == Groups(p, Some(k)) + (set t | t in tags1) + (set t | t in tags2)
  {
  }

  /** After `group(k, *gs)` the groups of k are exactly gs; with
      `replace=False` they are the old ones plus gs. */
  lemma GroupSetsGroupsOf<K(!new), G(!new), V>(p: PolyMap<K, G, V>, k: K, gs: seq<G>, replace: bool)
    requires Group(p, k, gs, replace).Ok?
    ensures replace ==> Groups(Group(p, k, gs, replace).value, Some(k)) == set g | g in gs
    ensures !replace ==> Groups(Group(p, k, gs, replace).value, Some(k)) == Groups(p, Some(k)) + set g | g in gs
  {
  }

  /** `ungroup(k)` leaves k with no groups but still in the dictionary. */
  lemma UngroupAllKeepsEntry<K(!new), G(!new), V>(p: PolyMap<K, G, V>, k: K)
    ensures Groups(UngroupAll(p, k), Some(k)) == {}
    ensures Get(UngroupAll(p, k), k) == Get(p, k)
  {
  }

  /** In a valid map a group is listed by `groups()` exactly when some key
      of the dictionary lists it in `groups(key)`. */
  lemma GroupsAreGroupsOfKeys<K(!new), G(!new), V>(p: PolyMap<K, G, V>, g: G)
    requires Valid(p)
    ensures g in Groups(p, None) <==> exists k :: k in p.entries && g in Groups(p, Some(k))
  {
  }

  /* ---------- update, copy, equality ---------- */

  /** Updating a poly-map with itself changes nothing. */
  lemma UpdateWithSelf<K(!new), G(!new), V>(p: PolyMap<K, G, V>)
    ensures Update(p, Poly(p)) == p
  {
    var r := Update(p, Poly(p));
    assert r.entries == p.entries;
    forall g | g in p.groups ensures r.groups[g] == p.groups[g] {
      assert r.groups[g] == p.groups[g] + p.groups[g];
    }
    assert r.groups == p.groups;
  }

  /** `copy()` compares equal to the original, and so does a copy of it. */
  lemma CopyEqualsOriginal<K(!new), G(!new), V>(p: PolyMap<K, G, V>)
    ensures Copy(p, None).Ok? && Equals(p, Poly(Copy(p, None).value))
    ensures Equals(Copy(p, None).value, Poly(p))
  {
  }

  /** `copy(g)` holds the same pairs that `items(g)` yields. */
  lemma CopyGroupHasItems<K(!new), G(!new), V(!new)>(p: PolyMap<K, G, V>, g: G)
    requires Copy(p, Some(g)).Ok?
    ensures Items(Copy(p, Some(g)).value, None) == Items(p, Some(g))
  {
    var c := Copy(p, Some(g)).value;
    assert Items(p, Some(g)).Ok?;
    var a := Items(c, None).value;
    var b := Items(p, Some(g)).value;
    forall x | x in a ensures x in b {
      assert (x.0, x.1) in a;
      assert InGroup(p, x.0, g) && p.entries[x.0] == x.1;
    }
    forall x | x in b ensures x in a {
      assert (x.0, x.1) in b;
      assert x.0 in c.entries && c.entries[x.0] == x.1;
    }
    assert a == b;
  }

  /** `==` compares the raw group indices: a map whose key was tagged and
      then ungrouped keeps an empty set for the id, and differs from the
      same map never tagged, although every read returns the same. */
  lemma EqualsSeesEmptyGroups<K(!new), G(!new), V(!new)>(k: K, g: G, v: V)
    ensures var a: PolyMap<K, G, V> := UngroupAll(SetItem(Empty(), k, v, [g]), k);
      var b: PolyMap<K, G, V> := SetItem(Empty(), k, v, []);
      && !Equals(a, Poly(b))
      && Items(a, None) == Items(b, None)
      && Groups(a, None) == Groups(b, None) == {}
      && Groups(a, Some(k)) == Groups(b, Some(k)) == {}
  {
  }
}

=== FILE: polymap_scenarios.dfy ===
/** The scenarios of test_polymap.py, stated on the model: each lemma
    builds the same poly-map the test builds and proves what the test
    asserts about it. */
module PolyMapScenarios {
  import opened Wrappers
  import opened PolyMaps
  import opened PolyMapViews
  import opened PolyMapProperties

  type Str = string

  /** `poly["cat", "animal"] = "tom"` on an empty poly-map. */
  function Cat(): PolyMap<Str, Str, Str>
  {
    SetItem(Empty(), "cat", "tom", ["animal"])
  }

  /** `Cat()` followed by `poly["marigold", "plant"] = "flowey"`. */
  function CatAndMarigold(): PolyMap<Str, Str, Str>
  {
    SetItem(Cat(), "marigold", "flowey", ["plant"])
  }

  /** `PolyMap({"hello": "world"})` stores the mapping's entry. */
  lemma CreateFromMappingScenario()
    ensures Get(FromMapping<Str, Str, Str>(Plain(map["hello" := "world"])), "hello") == Ok("world")
  {
  }

  /** A tagged set stores the value and lists the tag among the groups. */
  lemma SetItemWithGroupScenario()
    ensures Get(Cat(), "cat") == Ok("tom")
    ensures "animal" in Groups(Cat(), None)
  {
  }

  /** Filtering by "plant" yields the marigold alone, whichever view is
      asked, and the marigold's only group is "plant". */
  lemma ViewsByGroupScenario()
    ensures Items(CatAndMarigold(), Some("plant")) == Ok({("marigold", "flowey")})
    ensures Keys(CatAndMarigold(), Some("plant")) == {"marigold"}
    ensures Values(CatAndMarigold(), Some("plant")) == Ok(multiset{"flowey"})
    ensures Groups(CatAndMarigold(), Some("marigold")) == {"plant"}
  {
    var p := CatAndMarigold();
    assert "cat" != "marigold" && "animal" != "plant";
    assert Members(p, "plant") == {"marigold"};
    var items := Items(p, Some("plant")).value;
    forall x | x in items ensures x == ("marigold", "flowey") {
      assert (x.0, x.1) in items;
    }
    assert ("marigold", "flowey") in items;
    assert items == {("marigold", "flowey")};
    assert Values(p, Some("plant")).Ok?;
    var bag := Values(p, Some("plant")).value;
    assert Selected(p, Some("plant")) == {"marigold"};
    assert p.entries["marigold"] == "flowey";
    forall v ensures bag[v] == multiset{"flowey"}[v] {
      if v == "flowey" {
        assert KeysWithValue(p, {"marigold"}, v) == {"marigold"};
      } else {
        assert KeysWithValue(p, {"marigold"}, v) == {};
      }
    }
    assert bag == multiset{"flowey"};
    forall g ensures g in Groups(p, Some("marigold")) <==> g == "plant" {
      assert InGroup(p, "marigold", g) <==> g == "plant";
    }
  }

  /** `grouped()` pairs each group with its own items. */
  lemma GroupedScenario()
    ensures Grouped(CatAndMarigold()).Ok?
    ensures Grouped(CatAndMarigold()).value.Keys == {"animal", "plant"}
    ensures Grouped(CatAndMarigold()).value["animal"] == {("cat", "tom")}
    ensures Grouped(CatAndMarigold()).value["plant"] == {("marigold", "flowey")}
  {
  }

  /** `clear("plant")` leaves only the cat. */
  lemma ClearByGroupScenario()
    ensures Clear(CatAndMarigold(), Some("plant")).Ok?
    ensures Keys(Clear(CatAndMarigold(), Some("plant")).value, None) == {"cat"}
  {
  }

  /** Updating the cat's map with the marigold's brings in both the entry
      and the group, and keeps the cat's group. */
  lemma UpdateScenario()
    ensures var p := Update(Cat(), Poly(SetItem(Empty(), "marigold", "flowey", ["plant"])));
      && "marigold" in Keys(p, None)
      && "plant" in Groups(p, None)
      && "animal" in Groups(p, None)
  {
  }

  /** Two poly-maps built by the same set compare equal, and so does a
      copy, with the same groups. */
  lemma EqualsAndCopyScenario()
    ensures Equals(Cat(), Poly(SetItem(Empty(), "cat", "tom", ["animal"])))
    ensures Copy(Cat(), None).Ok?
    ensures Groups(Copy(Cat(), None).value, None) == Groups(Cat(), None)
    ensures Equals(Cat(), Poly(Copy(Cat(), None).value))
  {
  }

  /** The dog is tagged "animal" and then "show"; ungrouping it empties its
      groups, and only the cat's "animal" remains listed. */
  lemma UngroupAllScenario()
    ensures var p := UngroupAll(SetItem(SetItem(Cat(), "dog", "odie", ["animal"]), "dog", "garfield", ["show"]), "dog");
      && Groups(p, Some("dog")) == {}
      && Groups(p, None) == {"animal"}
      && Get(p, "dog") == Ok("garfield")
  {
  }

  /** `group("cat", "animals")` on an untagged cat makes "animals" its only
      group. */
  lemma GroupKeyScenario()
    ensures Group(SetItem(Empty(), "cat", "tom", []), "cat", ["animals"], true).Ok?
    ensures Groups(Group(SetItem(Empty(), "cat", "tom", []), "cat", ["animals"], true).value, Some("cat")) == {"animals"}
  {
  }
}

=== FILE: polymap_views.dfy ===
/** The read side of the poly-map (polymap.py): `items`, `keys`, `values`
    with an optional group filter, `groups`, `grouped`, `copy` and `==`.

    Python returns lazy generators and views; here each read returns the
    snapshot a caller gets by consuming it at once, as a set (or, for
    values, a multiset). Reading a group whose member is not a key makes
    `self[k]` raise KeyError while the generator runs: that is `Err`. */
module PolyMapViews {
  import opened Wrappers
  import opened PolyMaps

  /** The (key, value) pairs of the keys of ks that are in the dictionary. */
  function PairsOf<K(!new), G(!new), V(==, !new)>(p: PolyMap<K, G, V>, ks: set<K>): set<(K, V)>
  {
    set k | k in ks && k in p.entries :: (k, p.entries[k])
  }

  /** The keys a group filter selects: the whole dictionary, or one group. */
  function Selected<K(!new), G(!new), V>(p: PolyMap<K, G, V>, group: Option<G>): set<K>
  {
    match group
    case None => p.entries.Keys
    case Some(g) => Members(p, g)
  }

  /** `keys(group)`: every key, or exactly the members of the group,
      whether or not they are still keys of the dictionary. */
  function Keys<K(!new), G(!new), V>(p: PolyMap<K, G, V>, group: Option<G>): (r: set<K>)
    ensures group.None? ==> forall k :: k in r <==> k in p.entries
    ensures group.Some? ==> forall k :: k in r <==> InGroup(p, k, group.value)
  {
    Selected(p, group)
  }

  /** `items(group)`: the pairs of the dictionary, or of the group's
      members with their current values; KeyError when a member of the
      group is not a key. */
  function Items<K(!new), G(!new), V(==, !new)>(p: PolyMap<K, G, V>, group: Option<G>): (r: Result<set<(K, V)>>)
    ensures r.Err? <==> group.Some? && !(Members(p, group.value) <= p.entries.Keys)
    ensures r.Err? ==> r.error == KeyError
    ensures r.Ok? ==> forall k, v :: (k, v) in r.value <==>
      k in p.entries && p.entries[k] == v && (group.None? || InGroup(p, k, group.value))
  {
    var ks := Selected(p, group);
    if ks <= p.entries.Keys then Ok(PairsOf(p, ks)) else Err(KeyError)
  }

  /** The bag of the values of a dictionary: each value as often as it is
      stored. */
  ghost function ValueBag<K(!new), V>(m: map<K, V>): multiset<V>
    decreases |m|
  {
    if |m| == 0 then multiset{}
    else
      var k :| k in m;
      multiset{m[k]} + ValueBag(m - {k})
  }

  /** Each value occurs in the bag once per key that stores it. */
  lemma {:induction false} ValueBagCounts<K(!new), V>(m: map<K, V>, v: V)
    ensures ValueBag(m)[v] == |set k | k in m && m[k] == v|
    decreases |m|
  {
    if |m| == 0 {
    } else {
      var k :| k in m && ValueBag(m) == multiset{m[k]} + ValueBag(m - {k});
      var rest := m - {k};
      ValueBagCounts(rest, v);
      var all := set k' | k' in m && m[k'] == v;
      var others := set k' | k' in rest && rest[k'] == v;
      if m[k] == v {
        assert all == others + {k};
        assert k !in others;
      } else {
        assert all == others;
      }
    }
  }

  /** The keys of ks that store the value v. */
  ghost function KeysWithValue<K(!new), G(!new), V>(p: PolyMap<K, G, V>, ks: set<K>, v: V): set<K>
  {
    set k | k in ks && k in p.entries && p.entries[k] == v
  }

  /** `values(group)`: the values of the dictionary, or of the group's
      members, each as often as a selected key stores it; KeyError as for
      `items`. */
  ghost function Values<K(!new), G(!new), V(!new)>(p: PolyMap<K, G, V>, group: Option<G>): (r: Result<multiset<V>>)
    ensures r.Err? <==> group.Some? && !(Members(p, group.value) <= p.entries.Keys)
    ensures r.Err? ==> r.error == KeyError
    ensures r.Ok? ==> forall v :: r.value[v] == |KeysWithValue(p, Selected(p, group), v)|
  {
    var ks := Selected(p, group);
    if ks <= p.entries.Keys then
      var sub := map k | k in ks :: p.entries[k];
      forall v ensures ValueBag(sub)[v] == |KeysWithValue(p, ks, v)| {
        ValueBagCounts(sub, v);
        assert (set k | k in sub && sub[k] == v) == KeysWithValue(p, ks, v);
      }
      Ok(ValueBag(sub))
    else
      Err(KeyError)
  }

  /** `groups(key)`: with no key, the ids whose set is non-empty; with a
      key, the ids whose set contains it. */
  function Groups<K(!new), G(!new), V>(p: PolyMap<K, G, V>, key: Option<K>): (r: set<G>)
    ensures key.None? ==> forall g :: g in r <==> Members(p, g) != {}
    ensures key.Some? ==> forall g :: g in r <==> InGroup(p, key.value, g)
  {
    match key
    case None => set g | g in p.groups && p.groups[g] != {}
    case Some(k) => set g | g in p.groups && k in p.groups[g]
  }

  /** `grouped()`: one entry per non-empty group, holding that group's
      members with their current values. Consuming it raises KeyError
      exactly when some group holds a key the dictionary lacks. */
  function Grouped<K(!new), G(!new), V(==, !new)>(p: PolyMap<K, G, V>): (r: Result<map<G, set<(K, V)>>>)
    ensures r.Ok? <==> Valid(p)
    ensures r.Err? ==> r.error == KeyError
    ensures r.Ok? ==> r.value.Keys == Groups(p, None)
    ensures r.Ok? ==> forall g :: g in r.value ==> Items(p, Some(g)) == Ok(r.value[g])
  {
    if Valid(p) then
      Ok(map g | g in p.groups && p.groups[g] != {} :: PairsOf(p, p.groups[g]))
    else
      Err(KeyError)
  }

  /** `copy(group)`: with no group, a poly-map built from this one, so it
      has the same entries and the same group index; with a group, a
      poly-map holding exactly that group's entries and no groups. */
  function Copy<K(!new), G(!new), V>(p: PolyMap<K, G, V>, group: Option<G>): (r: Result<PolyMap<K, G, V>>)
    ensures group.None? ==> r == Ok(p)
    ensures group.Some? ==> (r.Err? <==> !(Members(p, group.value) <= p.entries.Keys))
    ensures r.Err? ==> r.error == KeyError
    ensures group.Some? && r.Ok? ==> forall k :: k in r.value.entries <==> InGroup(p, k, group.value)
    ensures r.Ok? ==> forall k :: k in r.value.entries ==> k in p.entries && r.value.entries[k] == p.entries[k]
    ensures group.Some? && r.Ok? ==> r.value.groups == map[]
    ensures r.Ok? ==> Valid(r.value) || group.None?
  {
    match group
    case None => Ok(FromMapping(Poly(p)))
    case Some(g) =>
      var ks := Members(p, g);
      if ks <= p.entries.Keys then Ok(FromMapping(Plain(map k | k in ks :: p.entries[k])))
      else Err(KeyError)
  }

  /** `p == other`: false against a plain mapping (it has no `_groups`);
      against a poly-map, the dictionaries are equal and the raw group
      indices are equal, empty sets included. */
  function Equals<K(!new), G(!new), V(==)>(p: PolyMap<K, G, V>, other: Mapping<K, G, V>): (r: bool)
    ensures other.Plain? ==> !r
    ensures other.Poly? ==> (r <==> p == other.pm)
  {
    match other
    case Plain(_) => false
    case Poly(q) => p.entries == q.entries && p.groups == q.groups
  }
}

=== FILE: wrappers.dfy ===
/** Failure-carrying values for the poly-map model: the optional arguments
    Python spells `None`, and the two exceptions the poly-map raises. */
module Wrappers {

  /** An optional argument or result; `None` is Python's `None` default. */
  datatype Option<+T> = None | Some(value: T)

  /** The exceptions the poly-map operations raise. */
  datatype Error = KeyError | ValueError

  /** The outcome of an operation that may raise. */
  datatype Result<+T> = Ok(value: T) | Err(error: Error)
}
